=== FILE: README.md ===
# Campus Crave server: engagement and meal-request rules

A Dafny model of the rules inside the Express/MongoDB server of a hostel
meal-subscription platform (`index.js`). Underneath the routing and the
database calls the server keeps a small state machine over five
collections (users, meals, likes, reviews, meal requests):

- creating a meal forces its `rating`, `likes` and `reviews_count` to zero;
- a like is a one-time action per (meal, user), bumping the meal's `likes`;
- a review is always inserted and bumps `reviews_count`; deleting or
  editing one leaves the counter alone;
- a meal request passes a premium gate (no user, or a bronze badge in any
  letter case, is refused with 403), then a duplicate check (400), then is
  stored as `pending`;
- a user's requests are listed by an inner join with the meals;
- smaller routes: role lookup, paginated meals of a category, and cancelling
  a request.

The store is an immutable value (`Documents.Store`) holding one sequence
per collection in the store's natural order, and every route is a pure
function from a store and the request's inputs to a reply and a new store.
Mongo's `findOne`, `updateOne` and `deleteOne` act on the first matching
document in that order (`Documents.IndexOf`). The identifiers the store
generates for inserted documents (`newId`) and the clock value
(`new Date()`, `now`) are parameters.

Files: `store.dfy` (data model and store primitives), `users.dfy` (role
lookup, premium gate), `meals.dfy` (meal creation, pagination),
`likes.dfy`, `reviews.dfy`, `requests.dfy` (the routes and their
properties) and `invariants.dfy` (store invariants each route keeps).

The request record stores no meal title; the title comes only from the
join. `Requests.CreateRequest` reads the duplicate check with one
identifier type, and `Requests.CreateRequestAsWritten` keeps the
string/ObjectId mismatch of the code as written (see Findings).

## Model

| member | source | states |
|---|---|---|
| `Documents.IncrementCounter` | index.js:266-269 | `$inc` on a meal counter raises it by one on the first meal with that id and on no other meal (later meals sharing the id included), and reports `modifiedCount` 1 exactly when such a meal exists |
| `Users.FindUser` | index.js:182 | the lookup by email finds nothing exactly when no user has the email, otherwise the first user with it |
| `Users.RoleOf` | index.js:180-184 | the role reply is the first matching user's role when present and non-empty, otherwise "user"; never empty |
| `Users.BronzeIgnoresCase` | index.js:385 | a badge is bronze exactly when it spells "bronze" in any letter case ("Bronze", "BRONZE" yes; "Gold", "bronze " no) |
| `Users.PremiumGate` | index.js:382-387 | the gate refuses an unknown email, and for a known one refuses exactly a bronze badge; a user without a badge passes |
| `Meals.CreateMeal` | index.js:55-63 | exactly one meal is appended, carrying the client's fields, the new id and zero rating, likes and reviews_count whatever the client sent; no other collection changes |
| `Meals.InCategory` | index.js:80-83 | with a category, exactly the meals of that category (same count, each one a stored meal); without one, all meals |
| `Meals.InCategoryKeepsOrder` | index.js:80-83 | the category filter keeps stored order: the filter of a concatenation is the concatenation of the filters |
| `Meals.InCategoryOne` | index.js:80-82 | a single meal passes the filter exactly when it is of the category or no category is given; with the order lemma this fixes the filtered sequence |
| `Meals.MealsPage` | index.js:77-85 | a page is refused exactly when `page*size` is negative; otherwise it has at most `size` meals, and for a negative size at most `\|size\|` and at most the 101 documents of the store's single first batch; all are stored meals of the category |
| `Meals.PageContents` | index.js:77-85 | a page whose skip is not negative holds exactly the matching meals from position `page*size` on, `size` of them for a positive size, `min(\|size\|, 101)` for a negative one, fewer at the end, none past the end |
| `Meals.PagesCoverCategory` | index.js:83 | with page size n, the matching meal at position i is entry i%n of page i/n, so every matching meal appears on some page |
| `Meals.DefaultPageSize` | index.js:79-83 | a missing, zero or non-numeric size means pages of six, the first page being the first six matching meals |
| `Likes.LikeMeal` | index.js:242-277 | no email: 400 and no change; existing like: modifiedCount 0 and no change; otherwise one like row appended, only the first meal with the id has its likes raised, modifiedCount 0 when no meal has the id; users, reviews and requests untouched |
| `Likes.CheckLiked` | index.js:281-292 | false without an email; otherwise true exactly when a like row exists for the pair |
| `Likes.LikeIsIdempotent` | index.js:251-271 | liking twice: the second call reports modifiedCount 0 and changes nothing; together they add one row and raise the meal's likes by exactly one |
| `Likes.LikeThenChecked` | index.js:242-292 | after a like with an email, the check route reports the meal liked by that user |
| `Likes.LikeKeepsLikesUnique` | index.js:251-264 | the like route never creates a second row for a (meal, user) pair |
| `Likes.LikeKeepsCountersCoherent` | index.js:260-269 | with unique meal ids, each meal's likes stays equal to its number of like rows |
| `Reviews.AddReview` | index.js:296-308 | one review appended with the body's fields under the new id, only the first meal with the referenced id has its reviews_count raised by one, reply echoes id and body |
| `Reviews.DeleteReview` | index.js:355-360 | deletedCount is 1 exactly when a review has the id; the first such review alone is removed; meals (and their reviews_count) unchanged |
| `Reviews.EditReview` | index.js:361-371 | only the text of the first review with the id changes; matchedCount says it exists, modifiedCount whether the text differed; counters unchanged |
| `Reviews.AddReviewKeepsCountersCoherent` | index.js:296-305 | with unique meal ids, each meal's reviews_count stays equal to its number of review rows |
| `Reviews.AddThenDeleteReview` | index.js:296-360 | deleting the review just added restores the reviews, yet the meal's reviews_count stays one higher |
| `Reviews.DeleteReviewBreaksCoherence` | index.js:355-360 | deleting the only review of a meal with reviews_count 1 leaves the count above the number of rows |
| `Reviews.EditReviewIdempotent` | index.js:361-371 | repeating an edit with the same text changes nothing and reports modifiedCount 0 |
| `Requests.CreateRequest` | index.js:379-403 | read with one id type (see Findings): 403 exactly when the gate refuses; 400 exactly when the gate passes and a request for (meal, user) exists in any status; both unchanged; otherwise one pending request appended under the new id |
| `Requests.GateBeforeDuplicate` | index.js:382-392 | a bronze user gets 403 even with an existing request; an unknown user gets 403; a user without a badge is never refused with 403 |
| `Requests.SecondRequestRejected` | index.js:389-392 | read with one id type (see Findings): after a successful request, requesting the same meal again gets 400 and changes nothing |
| `Requests.CreateRequestKeepsRequestsUnique` | index.js:389-400 | read with one id type (see Findings): request creation never stores a second request for a (meal, user) pair |
| `Requests.Unwind` | index.js:415-422 | lookup plus unwind gives one row per meal carrying the request's meal id, none when there is none |
| `Requests.Join` | index.js:412-433 | every row pairs a request of the email with a meal it references, and every such pair yields a row |
| `Requests.RequestsForUser` | index.js:408-436 | rows come only from the user's requests whose meal exists, carrying that meal's title, likes and reviews_count, and every such request appears |
| `Requests.UnwindUnique` | index.js:415-422 | with unique meal ids a request yields exactly one row when its meal exists and none otherwise |
| `Requests.JoinIsFilteredRequests` | index.js:412-433 | with unique meal ids the join is the user's requests with an existing meal, one row each in stored order, never more rows than the user's requests |
| `Requests.CancelRequest` | index.js:439-443 | deletedCount is 1 exactly when a request has the id, whatever its status; the first such request alone is removed |
| `Requests.CreateThenCancel` | index.js:394-443 | cancelling the request just created restores the store exactly |
| `Requests.CreateRequestAsWritten` | index.js:389-400 | as written, the route never answers 400: the string-typed duplicate query cannot match a stored ObjectId |
| `Requests.AsWrittenStoresDuplicates` | index.js:389-400 | as written, a premium user's second request for a meal is stored, leaving two requests for the pair, where the corrected route answers 400 |
| `Invariants.CreateMealKeepsConsistent` | index.js:55-62 | creating a meal under a fresh id keeps meal ids unique and all counters equal to their row counts |
| `Invariants.LikeKeepsConsistent` | index.js:251-269 | a like keeps the store invariants (unique ids, one like per pair, coherent counters) |
| `Invariants.AddReviewKeepsConsistent` | index.js:296-305 | a review insertion keeps the store invariants |
| `Invariants.EditReviewKeepsConsistent` | index.js:361-371 | a review edit keeps the store invariants |
| `Invariants.CreateRequestKeepsConsistent` | index.js:389-400 | read with one id type (see Findings): request creation keeps the store invariants |
| `Invariants.CancelRequestKeepsConsistent` | index.js:439-443 | cancelling a request keeps the store invariants |

## Left out

- Server bootstrap, CORS, cookie parsing, environment loading and the
  database connection and ping (index.js:1-50, 462-477): I/O plumbing.
- The Stripe payment intent (index.js:203-212): a call into a payment
  provider, computed in floating point.
- `/mealpage` filtering and user search (index.js:89-120, 153-165): they rely
  on the store's regular-expression matching and on `parseFloat`.
- `/allmeals` (index.js:66-74): sorting by a client-named field is the
  store's sort, not a rule of the server.
- Pass-through reads and writes with no rules: payments, user creation,
  role and badge setters (the badge route is registered twice and the first
  registration handles every call), `GET /meals/:id`, `/admin_meals`,
  `GET /users/:email`, and the review listings (index.js:124-150, 168-177,
  187-197, 215-237, 311-353, 446-455).
- Concurrency: two simultaneous likes or requests for the same pair can
  both pass the existence check; the model handles requests one at a time.
- Identifier parsing: `new ObjectId(x)` on a malformed id throws (a 500 in
  the like route, an unhandled rejection elsewhere); the model takes ids as
  already parsed, and a review's `mealId` as a valid id.
- `Meals.MealsPage`: a negative size asks for a single batch. The model
  cuts it at the store's default first batch of 101 documents, but not at
  the 16 MiB batch size cap, since document sizes are not modelled.
- `Meals.PageContents`: the page length it states for a negative size
  likewise ignores the 16 MiB cut; with large documents the single batch
  can hold fewer meals.
- `parseInt` itself: `Meals.MealsPage` takes what it produced (NaN or an
  integer), not the raw query string; results beyond 2^53 are not modelled.
- Request bodies and query parameters are typed records. Bodies with
  missing or oddly typed fields are not modelled: a non-string badge, or a
  null `review` text. Neither are query parameters given as an array or an
  object, such as `category` or the check route's `email`; the extended
  query parser turns `?category[$ne]=x` into an operator filter. The one
  exception is the like and check routes' missing or empty email.
- Review rows are tied to meals through the hex string the client sent:
  the stored review keeps the body's `mealId` as a string (index.js:297-299),
  while meals, likes and requests hold ObjectIds. `Reviews.ReviewsOf`, and
  with it `Reviews.AddReviewKeepsCountersCoherent` and the `Invariants`
  lemmas, read that string as the meal's ObjectId. On the real collection a
  query `{mealId: meal._id}` matches no review.
- `Users.Lower`: folds ASCII letters only; JavaScript's `toLowerCase` folds
  all of Unicode, but no non-ASCII character lower-cases to a letter of
  "bronze", so the gate decides the same.
- `Requests.JoinIsFilteredRequests`: the length bound and order are stated
  for unique meal ids; if two meals shared an id, `$unwind` would give a
  request one row per meal, which `Requests.Join` states.

## Findings

| source | as written | input that shows it | evidently intended | confidence | as-written member | corrected member |
|---|---|---|---|---|---|---|
| index.js:389-400 | the duplicate query `{mealId, userEmail}` uses the body's `mealId` string, while the insert stores `new ObjectId(mealId)`, so the query never matches a request this route stored | a gold-badge user posts the same `{mealId, userEmail}` twice: both are stored as pending | the second request is refused with 400 "You have already requested this meal." | high; not executed | `Requests.AsWrittenStoresDuplicates` | `Requests.SecondRequestRejected` |

=== FILE: invariants.dfy ===
/** The store invariants the engagement and request rules protect, and which
    routes keep them when requests are handled one after another:
    - meal ids are unique;
    - at most one like per (meal, user) and one request per (meal, user);
    - every meal's `likes` and `reviews_count` equal its numbers of like and
      review rows.
    Among the modelled routes, deleting a review is the one that does not
    keep them (see `Reviews.DeleteReviewBreaksCoherence`); the request route
    as written also stores duplicate requests (see
    `Requests.AsWrittenStoresDuplicates`). */
module Invariants {
  import opened Documents
  import Meals
  import Likes
  import Reviews
  import Requests

  predicate Consistent(s: Store) {
    && UniqueMealIds(s.meals)
    && Likes.NoDuplicateLikes(s.likes)
    && Requests.NoDuplicateRequests(s.requests)
    && Likes.LikesCoherent(s)
    && Reviews.ReviewsCoherent(s)
  }

  /** `newId` is not yet used as a meal id nor referenced by a like or a
      review, as holds of an ObjectId the store has just generated. */
  predicate FreshMealId(s: Store, newId: Id) {
    && !HasMeal(s.meals, newId)
    && (forall i :: 0 <= i < |s.likes| ==> s.likes[i].mealId != newId)
    && (forall i :: 0 <= i < |s.reviews| ==> s.reviews[i].mealId != newId)
  }

  /** A new meal starts with counters that match its (empty) like and review
      rows, so creating a meal under a fresh id keeps the store consistent. */
  lemma CreateMealKeepsConsistent(s: Store, body: Meals.MealBody, newId: Id)
    requires Consistent(s)
    requires FreshMealId(s, newId)
    ensures Consistent(Meals.CreateMeal(s, body, newId).1)
  {
  }

  lemma LikeKeepsConsistent(s: Store, mealId: Id, email: Option<string>, newId: Id, now: Time)
    requires Consistent(s)
    ensures Consistent(Likes.LikeMeal(s, mealId, email, newId, now).1)
  {
    var t := Likes.LikeMeal(s, mealId, email, newId, now).1;
    Likes.LikeKeepsLikesUnique(s, mealId, email, newId, now);
    Likes.LikeKeepsCountersCoherent(s, mealId, email, newId, now);
    forall i | 0 <= i < |t.meals|
      ensures t.meals[i].reviewsCount == Reviews.ReviewsOf(t.reviews, t.meals[i].id)
    {
      assert t.meals[i].reviewsCount == s.meals[i].reviewsCount;
    }
  }

  lemma AddReviewKeepsConsistent(s: Store, body: Reviews.ReviewBody, newId: Id)
    requires Consistent(s)
    ensures Consistent(Reviews.AddReview(s, body, newId).1)
  {
    var t := Reviews.AddReview(s, body, newId).1;
    Reviews.AddReviewKeepsCountersCoherent(s, body, newId);
    forall i | 0 <= i < |t.meals|
      ensures t.meals[i].likes == Likes.LikesOf(t.likes, t.meals[i].id)
    {
      assert t.meals[i].likes == s.meals[i].likes;
    }
  }

  /** Editing a review's text moves no review to another meal. */
  lemma EditReviewKeepsConsistent(s: Store, id: Id, text: string)
    requires Consistent(s)
    ensures Consistent(Reviews.EditReview(s, id, text).1)
  {
    var t := Reviews.EditReview(s, id, text).1;
    forall i | 0 <= i < |t.meals|
      ensures t.meals[i].reviewsCount == Reviews.ReviewsOf(t.reviews, t.meals[i].id)
    {
      var mid := t.meals[i].id;
      assert forall j :: 0 <= j < |s.reviews| ==> t.reviews[j].mealId == s.reviews[j].mealId;
      CountPointwise(s.reviews, t.reviews, (v: Review) => v.mealId == mid);
    }
  }

  lemma CreateRequestKeepsConsistent(s: Store, body: Requests.RequestBody, newId: Id, now: Time)
    requires Consistent(s)
    ensures Consistent(Requests.CreateRequest(s, body, newId, now).1)
  {
  }

  lemma CancelRequestKeepsConsistent(s: Store, id: Id)
    requires Consistent(s)
    ensures Consistent(Requests.CancelRequest(s, id).1)
  {
  }

}

=== FILE: likes.dfy ===
/** The like system: `PATCH /meals/like/:id` (a one-time like per user and
    meal, bumping the meal's `likes` counter) and `GET /likes/check/:mealId`
    (whether a user has liked a meal). */
module Likes {
  import opened Documents

  /** The replies of the like route: 400 when the body carries no email,
      otherwise `{liked: true, modifiedCount}`. */
  datatype LikeReply = EmailRequired | Liked(modifiedCount: nat)

  /** Some like row records `email` liking `mealId`. */
  predicate HasLike(likes: seq<Like>, mealId: Id, email: string) {
    exists i :: 0 <= i < |likes| && likes[i].mealId == mealId && likes[i].userEmail == email
  }

  /** `PATCH /meals/like/:id` with body `{email}`. A missing or empty email
      is rejected and nothing changes; an existing like for the pair is a
      no-op reporting `modifiedCount` 0; otherwise one like row is appended
      and the first meal with that id gets `likes` raised by one, the reply
      reporting whether a meal was there to update. `newId` and `now` are the
      identifier and timestamp the store and the clock supply for the row. */
  function LikeMeal(s: Store, mealId: Id, email: Option<string>, newId: Id, now: Time): (r: (LikeReply, Store))
    ensures !Present(email) ==> r == (EmailRequired, s)
    ensures Present(email) && HasLike(s.likes, mealId, email.value) ==> r == (Liked(0), s)
    ensures Present(email) && !HasLike(s.likes, mealId, email.value) ==>
      && r.0 == Liked(if HasMeal(s.meals, mealId) then 1 else 0)
      && r.1.likes == s.likes + [Like(newId, mealId, email.value, now)]
    ensures r.1.users == s.users && r.1.reviews == s.reviews && r.1.requests == s.requests
    ensures |r.1.meals| == |s.meals|
    ensures forall i :: 0 <= i < |s.meals| && s.meals[i].id != mealId ==> r.1.meals[i] == s.meals[i]
    ensures forall i :: 0 <= i < |s.meals| ==> r.1.meals[i].id == s.meals[i].id
    ensures Present(email) && !HasLike(s.likes, mealId, email.value) ==>
      forall k :: FirstMeal(s.meals, mealId, k) ==>
        && r.1.meals[k] == s.meals[k].(likes := s.meals[k].likes + 1)
        && forall i :: 0 <= i < |s.meals| && i != k ==> r.1.meals[i] == s.meals[i]
    ensures UniqueMealIds(s.meals) ==>
      forall i :: 0 <= i < |s.meals| && s.meals[i].id == mealId ==>
        r.1.meals[i] == if r.0 == Liked(1) then s.meals[i].(likes := s.meals[i].likes + 1) else s.meals[i]
  {
    if !Present(email) then (EmailRequired, s)
    else if IndexOf(s.likes, (l: Like) => l.mealId == mealId && l.userEmail == email.value).Some? then
      (Liked(0), s)
    else
      var likes := s.likes + [Like(newId, mealId, email.value, now)];
      var (meals, modified) := IncrementCounter(s.meals, mealId, LikesCounter);
      (Liked(modified), s.(likes := likes, meals := meals))
  }

  /** `GET /likes/check/:mealId?email=`: false when the email is missing or
      empty, otherwise whether a like row exists for the pair. */
  function CheckLiked(s: Store, mealId: Id, email: Option<string>): (r: bool)
    ensures !Present(email) ==> !r
    ensures Present(email) ==> (r <==> HasLike(s.likes, mealId, email.value))
  {
    if !Present(email) then false
    else IndexOf(s.likes, (l: Like) => l.mealId == mealId && l.userEmail == email.value).Some?
  }

  /** The number of like rows recorded for a meal. */
  function LikesOf(likes: seq<Like>, mealId: Id): nat {
    Count(likes, (l: Like) => l.mealId == mealId)
  }

  /** At most one like row per (meal, user) pair. */
  predicate NoDuplicateLikes(likes: seq<Like>) {
    forall i, j :: 0 <= i < j < |likes| ==>
      !(likes[i].mealId == likes[j].mealId && likes[i].userEmail == likes[j].userEmail)
  }

  /** Every meal's `likes` counter equals the number of its like rows. */
  predicate LikesCoherent(s: Store) {
    forall i :: 0 <= i < |s.meals| ==> s.meals[i].likes == LikesOf(s.likes, s.meals[i].id)
  }

  /** Liking twice is liking once: the second call reports `modifiedCount` 0
      and changes nothing, so in total at most one like row is added and,
      when meal ids are unique, the liked meal's counter rises by exactly one
      over both calls (or not at all, if the user had liked it before). */
  lemma LikeIsIdempotent(s: Store, mealId: Id, email: Option<string>, id1: Id, t1: Time, id2: Id, t2: Time)
    requires Present(email)
    ensures var (r1, s1) := LikeMeal(s, mealId, email, id1, t1);
      var (r2, s2) := LikeMeal(s1, mealId, email, id2, t2);
      && r2 == Liked(0) && s2 == s1
      && (HasLike(s.likes, mealId, email.value) ==> r1 == Liked(0) && s1 == s)
      && (!HasLike(s.likes, mealId, email.value) ==> |s2.likes| == |s.likes| + 1)
      && (UniqueMealIds(s.meals) && !HasLike(s.likes, mealId, email.value) ==>
            forall i :: 0 <= i < |s.meals| && s.meals[i].id == mealId ==>
              s2.meals[i].likes == s.meals[i].likes + 1)
  {
    var (r1, s1) := LikeMeal(s, mealId, email, id1, t1);
    if !HasLike(s.likes, mealId, email.value) {
      assert s1.likes[|s.likes|] == Like(id1, mealId, email.value, t1);
    }
  }

  /** Once a like call with an email has returned, the check route reports
      the meal as liked by that user. */
  lemma LikeThenChecked(s: Store, mealId: Id, email: Option<string>, newId: Id, now: Time)
    requires Present(email)
    ensures CheckLiked(LikeMeal(s, mealId, email, newId, now).1, mealId, email)
  {
    var s1 := LikeMeal(s, mealId, email, newId, now).1;
    if !HasLike(s.likes, mealId, email.value) {
      assert s1.likes[|s.likes|] == Like(newId, mealId, email.value, now);
    }
  }

  /** The like route never creates a second row for a (meal, user) pair. */
  lemma LikeKeepsLikesUnique(s: Store, mealId: Id, email: Option<string>, newId: Id, now: Time)
    requires NoDuplicateLikes(s.likes)
    ensures NoDuplicateLikes(LikeMeal(s, mealId, email, newId, now).1.likes)
  {
  }

  /** Sequential likes keep every meal's counter equal to its number of like
      rows, provided meal ids are unique. A like for a meal that does not
      exist adds a row no meal counts. */
  lemma LikeKeepsCountersCoherent(s: Store, mealId: Id, email: Option<string>, newId: Id, now: Time)
    requires UniqueMealIds(s.meals)
    requires LikesCoherent(s)
    ensures LikesCoherent(LikeMeal(s, mealId, email, newId, now).1)
  {
    var (r, t) := LikeMeal(s, mealId, email, newId, now);
    if Present(email) && !HasLike(s.likes, mealId, email.value) {
      var l := Like(newId, mealId, email.value, now);
      forall i | 0 <= i < |t.meals|
        ensures t.meals[i].likes == LikesOf(t.likes, t.meals[i].id)
      {
        CountAppend(s.likes, l, (x: Like) => x.mealId == s.meals[i].id);
        if s.meals[i].id == mealId {
          assert HasMeal(s.meals, mealId);
        }
      }
    }
  }
}

=== FILE: meals.dfy ===
/** The meal catalogue routes: `POST /meals` (creation with the counters
    forced to zero) and `GET /meals` (one page of the meals of a category). */
module Meals {
  import opened Documents

  /** The client's body for `POST /meals`. It may carry values for the
      counters; the route overwrites them. */
  datatype MealBody = MealBody(
    title: string,
    category: string,
    price: int,
    email: string,
    rating: Option<int>,
    likes: Option<int>,
    reviewsCount: Option<int>)

  /** `POST /meals`: the meal is stored under the identifier the store
      assigns (`newId`) with `rating`, `likes` and `reviews_count` all zero,
      whatever the body said; the reply is the inserted id. Exactly one meal
      is added, at the end, and no other collection changes. */
  function CreateMeal(s: Store, body: MealBody, newId: Id): (r: (Id, Store))
    ensures r.0 == newId
    ensures |r.1.meals| == |s.meals| + 1 && r.1.meals[..|s.meals|] == s.meals
    ensures var m := r.1.meals[|s.meals|];
      && m.id == newId && m.rating == 0 && m.likes == 0 && m.reviewsCount == 0
      && m.title == body.title && m.category == body.category
      && m.price == body.price && m.email == body.email
    ensures r.1.users == s.users && r.1.likes == s.likes
    ensures r.1.reviews == s.reviews && r.1.requests == s.requests
  {
    var meal := Meal(newId, body.title, body.category, body.price, body.email, 0, 0, 0);
    (newId, s.(meals := s.meals + [meal]))
  }

  /** What `parseInt` made of a query parameter: not a number (including an
      absent parameter), or an integer. */
  datatype ParsedInt = NaN | Int(n: int)

  /** `parseInt(x) || d`: NaN and zero are falsy and give way to `d`. */
  function OrDefault(p: ParsedInt, d: int): int
  {
    match p
    case NaN => d
    case Int(n) => if n == 0 then d else n
  }

  /** The filter `category ? { category } : {}`: every meal when the
      category is absent or empty, otherwise the meals of exactly that
      category, in natural order. */
  function InCategory(meals: seq<Meal>, category: Option<string>): (r: seq<Meal>)
    ensures |r| <= |meals|
    ensures !Present(category) ==> r == meals
    ensures Present(category) ==> forall i :: 0 <= i < |r| ==> r[i].category == category.value
    ensures forall m :: m in r ==> m in meals
    ensures Present(category) ==> forall m :: m in meals && m.category == category.value ==> m in r
    ensures Present(category) ==> |r| == Count(meals, (m: Meal) => m.category == category.value)
  {
    if !Present(category) then meals
    else if |meals| == 0 then []
    else if meals[0].category == category.value then [meals[0]] + InCategory(meals[1..], category)
    else InCategory(meals[1..], category)
  }

  /** The filter keeps the stored order: filtering a concatenation filters
      each part and concatenates the results. With `InCategoryOne` this
      fixes the result element by element and in order. */
  lemma {:induction false} InCategoryKeepsOrder(a: seq<Meal>, b: seq<Meal>, category: Option<string>)
    ensures InCategory(a + b, category) == InCategory(a, category) + InCategory(b, category)
  {
    if !Present(category) {
    } else if |a| == 0 {
      assert a + b == b;
    } else {
      var head := if a[0].category == category.value then [a[0]] else [];
      var ab := a + b;
      assert ab[0] == a[0] && ab[1..] == a[1..] + b;
      InCategoryStep(ab, category);
      InCategoryStep(a, category);
      InCategoryKeepsOrder(a[1..], b, category);
      calc {
        InCategory(ab, category);
        head + InCategory(a[1..] + b, category);
        head + (InCategory(a[1..], category) + InCategory(b, category));
        (head + InCategory(a[1..], category)) + InCategory(b, category);
        InCategory(a, category) + InCategory(b, category);
      }
    }
  }

  /** One step of the filter on a non-empty sequence. */
  lemma InCategoryStep(meals: seq<Meal>, category: Option<string>)
    requires Present(category) && |meals| > 0
    ensures InCategory(meals, category) ==
      (if meals[0].category == category.value then [meals[0]] else []) + InCategory(meals[1..], category)
  {
  }

  /** A single meal is kept exactly when it is of the category (or no
      category is asked for). */
  lemma InCategoryOne(m: Meal, category: Option<string>)
    ensures InCategory([m], category) == if !Present(category) || m.category == category.value then [m] else []
  {
    if Present(category) {
      assert [m][1..] == [];
    }
  }

  datatype PageReply = Page(meals: seq<Meal>) | SkipRejected

  function Min(a: int, b: int): int {
    if a <= b then a else b
  }

  /** Documents in the store's first batch when the cursor names no batch
      size. */
  const FirstBatch: nat := 101

  /** The most documents a cursor with `.limit(sz)` returns. A positive
      limit is kept. A negative limit asks for a single batch of `|sz|`
      documents and then closes the cursor, so it is also cut at the first
      batch. */
  function Limit(sz: int): nat {
    if sz < 0 then Min(-sz, FirstBatch) else sz
  }

  /** `GET /meals?category&page&size`: `page` defaults to 0 and `size` to 6
      when they parse as NaN or 0; the cursor skips `page * size` matching
      meals and keeps at most `Limit(size)` of them. The store refuses a
      negative skip. */
  function MealsPage(s: Store, category: Option<string>, page: ParsedInt, size: ParsedInt): (r: PageReply)
    ensures var pg := OrDefault(page, 0); var sz := OrDefault(size, 6);
      r.SkipRejected? <==> pg * sz < 0
    ensures r.Page? ==> |r.meals| <= Limit(OrDefault(size, 6))
    ensures r.Page? && OrDefault(size, 6) > 0 ==> |r.meals| <= OrDefault(size, 6)
    ensures r.Page? && OrDefault(size, 6) < 0 ==> |r.meals| <= -OrDefault(size, 6) && |r.meals| <= FirstBatch
    ensures r.Page? && Present(category) ==>
      forall i :: 0 <= i < |r.meals| ==> r.meals[i].category == category.value
    ensures r.Page? ==> forall i :: 0 <= i < |r.meals| ==> r.meals[i] in s.meals
  {
    var pg := OrDefault(page, 0);
    var sz := OrDefault(size, 6);
    var matching := InCategory(s.meals, category);
    var skip := pg * sz;
    if skip < 0 then SkipRejected
    else
      var limit := Limit(sz);
      var from := Min(skip, |matching|);
      var to := Min(skip + limit, |matching|);
      Page(matching[from..to])
  }

  /** Paging partitions the matching meals: with a positive page size `n`,
      the matching meal at position `i` is the `(i % n)`-th entry of page
      `i / n`. */
  lemma PagesCoverCategory(s: Store, category: Option<string>, n: int, i: int)
    requires n > 0
    requires 0 <= i < |InCategory(s.meals, category)|
    ensures var r := MealsPage(s, category, Int(i / n), Int(n));
      r.Page? && i % n < |r.meals| && r.meals[i % n] == InCategory(s.meals, category)[i]
  {
    var q, rem := i / n, i % n;
    DivMod(i, n);
    var matching := InCategory(s.meals, category);
    assert OrDefault(Int(q), 0) == q;
    assert OrDefault(Int(n), 6) == n;
    var skip := q * n;
    assert Min(skip, |matching|) == skip;
    assert rem < Min(skip + n, |matching|) - skip;
    assert matching[skip..Min(skip + n, |matching|)][rem] == matching[i];
  }

  /** What a page holds: with `pg` and `sz` the page and size after their
      defaults, and the skip `pg * sz` not negative, the page is the run of
      matching meals starting at position `pg * sz`, `Limit(sz)` long or cut
      off at the end, and empty past the end. */
  lemma PageContents(s: Store, category: Option<string>, page: ParsedInt, size: ParsedInt)
    requires OrDefault(page, 0) * OrDefault(size, 6) >= 0
    ensures var skip := OrDefault(page, 0) * OrDefault(size, 6);
      var limit := Limit(OrDefault(size, 6));
      var m := InCategory(s.meals, category);
      var r := MealsPage(s, category, page, size);
      && r.Page?
      && |r.meals| == (if skip >= |m| then 0 else Min(limit, |m| - skip))
      && forall k :: 0 <= k < |r.meals| ==> r.meals[k] == m[skip + k]
  {
  }

  /** Euclidean division by a positive divisor. */
  lemma DivMod(i: int, n: int)
    requires 0 <= i && 0 < n
    ensures 0 <= i / n && 0 <= i % n < n && (i / n) * n + i % n == i
  {
  }

  /** With `size` missing, zero or not a number, a page holds at most six
      meals, and the first page is the first six matching meals. */
  lemma DefaultPageSize(s: Store, category: Option<string>, size: ParsedInt)
    requires size == NaN || size == Int(0)
    ensures var r := MealsPage(s, category, NaN, size);
      var matching := InCategory(s.meals, category);
      r.Page? && r.meals == matching[..Min(6, |matching|)]
    ensures forall page :: MealsPage(s, category, page, size).Page? ==>
      |MealsPage(s, category, page, size).meals| <= 6
  {
  }
}

=== FILE: requests.dfy ===
/** The meal-request routes: `POST /meal-requests` (premium gate, then
    duplicate check, then a pending insert), `GET /meal-requests/:email` (the
    user's requests joined with their meals) and `DELETE /meal-requests/:id`.

    The request body's `mealId` arrives as a hex string. The route's
    duplicate query uses that string as is, while the insert stores
    `new ObjectId(mealId)`; a string never equals an ObjectId in the store,
    so as written the duplicate check cannot match a request the route
    stored. `CreateRequest` reads both sides as the same identifier, which is
    what the check is evidently for; `CreateRequestAsWritten` keeps the
    mismatch. */
module Requests {
  import opened Documents
  import Users

  /** The client's body for `POST /meal-requests`. A `mealTitle` the client
      may send is not stored. */
  datatype RequestBody = RequestBody(mealId: Id, userEmail: string, userName: string)

  /** 403 for a non-premium or unknown user, 400 for a repeated request,
      otherwise `{insertedId}`. */
  datatype RequestReply = PremiumOnly | AlreadyRequested | RequestInserted(insertedId: Id)

  function HttpStatus(r: RequestReply): nat {
    match r
    case PremiumOnly => 403
    case AlreadyRequested => 400
    case RequestInserted(_) => 200
  }

  /** Some stored request, whatever its status, is for this meal and user. */
  predicate HasRequest(requests: seq<MealRequest>, mealId: Id, email: string) {
    exists i :: 0 <= i < |requests| && requests[i].mealId == mealId && requests[i].userEmail == email
  }

  /** At most one request per (meal, user) pair. */
  predicate NoDuplicateRequests(requests: seq<MealRequest>) {
    forall i, j :: 0 <= i < j < |requests| ==>
      !(requests[i].mealId == requests[j].mealId && requests[i].userEmail == requests[j].userEmail)
  }

  /** `POST /meal-requests`. The premium gate runs first: an unknown user or
      a bronze badge (any letter case) gets 403. Then a request for the same
      meal and user, in any status, gets 400. Both leave the store as it was.
      Otherwise one `Pending` request is appended under the store-assigned
      `newId`, stamped `now`. */
  function CreateRequest(s: Store, body: RequestBody, newId: Id, now: Time): (r: (RequestReply, Store))
    ensures r.0 == PremiumOnly <==> !Users.PremiumAllowed(s.users, body.userEmail)
    ensures r.0 == AlreadyRequested <==>
      Users.PremiumAllowed(s.users, body.userEmail) && HasRequest(s.requests, body.mealId, body.userEmail)
    ensures !r.0.RequestInserted? ==> r.1 == s
    ensures r.0.RequestInserted? ==>
      && r.0.insertedId == newId
      && r.1.requests == s.requests + [MealRequest(newId, body.mealId, body.userEmail, body.userName, Pending, now)]
      && r.1.users == s.users && r.1.meals == s.meals && r.1.likes == s.likes && r.1.reviews == s.reviews
  {
    if !Users.PremiumAllowed(s.users, body.userEmail) then (PremiumOnly, s)
    else if IndexOf(s.requests, (q: MealRequest) => q.mealId == body.mealId && q.userEmail == body.userEmail).Some? then
      (AlreadyRequested, s)
    else
      var request := MealRequest(newId, body.mealId, body.userEmail, body.userName, Pending, now);
      (RequestInserted(newId), s.(requests := s.requests + [request]))
  }

  /** The gate runs before the duplicate check: a bronze user with an
      existing request still gets 403, not 400; a user without a badge
      passes the gate. */
  lemma GateBeforeDuplicate(s: Store, body: RequestBody, newId: Id, now: Time)
    ensures forall k :: Users.FirstWithEmail(s.users, body.userEmail, k) ==>
      var reply := CreateRequest(s, body, newId, now).0;
      && (s.users[k].badge.Some? && Users.IsBronze(s.users[k].badge.value) ==> HttpStatus(reply) == 403)
      && (s.users[k].badge.None? ==> HttpStatus(reply) != 403)
    ensures (forall i :: 0 <= i < |s.users| ==> s.users[i].email != body.userEmail) ==>
      HttpStatus(CreateRequest(s, body, newId, now).0) == 403
  {
  }

  /** Requesting the same meal twice: the second call gets 400 and changes
      nothing when it comes immediately after the first. */
  lemma SecondRequestRejected(s: Store, body: RequestBody, id1: Id, t1: Time, id2: Id, t2: Time)
    requires CreateRequest(s, body, id1, t1).0.RequestInserted?
    ensures var s1 := CreateRequest(s, body, id1, t1).1;
      CreateRequest(s1, body, id2, t2) == (AlreadyRequested, s1)
  {
    var s1 := CreateRequest(s, body, id1, t1).1;
    assert s1.requests[|s.requests|].mealId == body.mealId;
  }

  /** Request creation never stores a second request for a (meal, user) pair. */
  lemma CreateRequestKeepsRequestsUnique(s: Store, body: RequestBody, newId: Id, now: Time)
    requires NoDuplicateRequests(s.requests)
    ensures NoDuplicateRequests(CreateRequest(s, body, newId, now).1.requests)
  {
  }

  /** One row of `GET /meal-requests/:email`: the request's id, status and
      time with its meal's title and counters. */
  datatype RequestView = RequestView(
    id: Id,
    status: Status,
    requestedAt: Time,
    mealTitle: string,
    likes: nat,
    reviewsCount: nat)

  function View(q: MealRequest, m: Meal): RequestView {
    RequestView(q.id, q.status, q.requestedAt, m.title, m.likes, m.reviewsCount)
  }

  /** `$lookup` of a request's meal followed by `$unwind`: one row per meal
      whose `_id` equals the request's `mealId`, none when there is none. */
  function Unwind(q: MealRequest, meals: seq<Meal>): (r: seq<RequestView>)
    ensures forall v :: v in r ==> exists j :: 0 <= j < |meals| && meals[j].id == q.mealId && v == View(q, meals[j])
    ensures forall j :: 0 <= j < |meals| && meals[j].id == q.mealId ==> View(q, meals[j]) in r
    ensures |r| == Count(meals, (m: Meal) => m.id == q.mealId)
  {
    if |meals| == 0 then []
    else (if meals[0].id == q.mealId then [View(q, meals[0])] else []) + Unwind(q, meals[1..])
  }

  /** `requests[i]` belongs to `email` and `meals[j]` is a meal it refers to. */
  predicate Joins(requests: seq<MealRequest>, meals: seq<Meal>, email: string, i: int, j: int) {
    && 0 <= i < |requests| && 0 <= j < |meals|
    && requests[i].userEmail == email && meals[j].id == requests[i].mealId
  }

  /** `v` is the view of one of the user's requests with a meal it refers to. */
  ghost predicate IsRow(requests: seq<MealRequest>, meals: seq<Meal>, email: string, v: RequestView) {
    exists i, j :: Joins(requests, meals, email, i, j) && v == View(requests[i], meals[j])
  }

  /** The aggregation pipeline over a list of requests: `$match` on the
      email, then `$lookup`/`$unwind`/`$project` against the meals. */
  function Join(requests: seq<MealRequest>, meals: seq<Meal>, email: string): (r: seq<RequestView>)
    ensures forall v :: v in r ==> IsRow(requests, meals, email, v)
    ensures forall i, j :: Joins(requests, meals, email, i, j) ==> View(requests[i], meals[j]) in r
  {
    if |requests| == 0 then []
    else
      var q := requests[0];
      var head := if q.userEmail == email then Unwind(q, meals) else [];
      var rest := Join(requests[1..], meals, email);
      JoinStep(requests, meals, email);
      head + rest
  }

  /** How the rows of the first request and of the remaining ones relate to
      the rows of the whole list. */
  lemma JoinStep(requests: seq<MealRequest>, meals: seq<Meal>, email: string)
    requires |requests| > 0
    ensures requests[0].userEmail == email ==>
      forall v :: v in Unwind(requests[0], meals) ==> IsRow(requests, meals, email, v)
    ensures forall v :: IsRow(requests[1..], meals, email, v) ==> IsRow(requests, meals, email, v)
    ensures forall i, j :: 1 <= i && Joins(requests, meals, email, i, j) ==> Joins(requests[1..], meals, email, i - 1, j)
  {
    var q := requests[0];
    if q.userEmail == email {
      forall v | v in Unwind(q, meals) ensures IsRow(requests, meals, email, v) {
        var j :| 0 <= j < |meals| && meals[j].id == q.mealId && v == View(q, meals[j]);
        assert Joins(requests, meals, email, 0, j);
      }
    }
    forall v | IsRow(requests[1..], meals, email, v) ensures IsRow(requests, meals, email, v) {
      var i, j :| Joins(requests[1..], meals, email, i, j) && v == View(requests[1..][i], meals[j]);
      assert requests[1..][i] == requests[i + 1];
      assert Joins(requests, meals, email, i + 1, j);
    }
    forall i, j | 1 <= i && Joins(requests, meals, email, i, j)
      ensures Joins(requests[1..], meals, email, i - 1, j)
    {
      assert requests[1..][i - 1] == requests[i];
    }
  }

  /** `GET /meal-requests/:email`: every row comes from one of the user's
      requests and a meal it references, and every such pair gives a row; a
      request whose meal is gone gives no row. */
  function RequestsForUser(s: Store, email: string): (r: seq<RequestView>)
    ensures forall v :: v in r ==> exists i, j ::
      Joins(s.requests, s.meals, email, i, j) && v == View(s.requests[i], s.meals[j])
    ensures forall i, j :: Joins(s.requests, s.meals, email, i, j) ==> View(s.requests[i], s.meals[j]) in r
  {
    Join(s.requests, s.meals, email)
  }

  /** The first meal with a given id, as `findOne({_id: id})` finds it. */
  function MealWithId(meals: seq<Meal>, id: Id): (r: Option<Meal>)
    ensures r.None? <==> !HasMeal(meals, id)
    ensures r.Some? ==> r.value in meals && r.value.id == id
  {
    match IndexOf(meals, (m: Meal) => m.id == id)
    case None => None
    case Some(k) => Some(meals[k])
  }

  /** The join as the route means it: the user's requests whose meal
      exists, in stored order, each shown with its meal. */
  function ExpectedRows(requests: seq<MealRequest>, meals: seq<Meal>, email: string): seq<RequestView> {
    if |requests| == 0 then []
    else
      var q := requests[0];
      var row := match MealWithId(meals, q.mealId)
        case None => []
        case Some(m) => if q.userEmail == email then [View(q, m)] else [];
      row + ExpectedRows(requests[1..], meals, email)
  }

  /** With a single match per meal id, `$unwind` yields exactly one row. */
  lemma UnwindUnique(q: MealRequest, meals: seq<Meal>)
    requires UniqueMealIds(meals)
    ensures HasMeal(meals, q.mealId) ==> Unwind(q, meals) == [View(q, MealWithId(meals, q.mealId).value)]
    ensures !HasMeal(meals, q.mealId) ==> Unwind(q, meals) == []
  {
  }

  /** When meal ids are unique the route returns exactly the user's
      requests whose meal exists, one row each, in stored order; so it never
      returns more rows than the user has requests. */
  lemma {:induction false} JoinIsFilteredRequests(requests: seq<MealRequest>, meals: seq<Meal>, email: string)
    requires UniqueMealIds(meals)
    ensures Join(requests, meals, email) == ExpectedRows(requests, meals, email)
    ensures |Join(requests, meals, email)| <= Count(requests, (q: MealRequest) => q.userEmail == email)
  {
    if |requests| > 0 {
      UnwindUnique(requests[0], meals);
      JoinIsFilteredRequests(requests[1..], meals, email);
    }
  }

  /** Some request has the identifier `id`. */
  predicate HasRequestId(requests: seq<MealRequest>, id: Id) {
    exists i :: 0 <= i < |requests| && requests[i].id == id
  }

  /** `requests[k]` is the request a filter `{_id: id}` picks first. */
  predicate FirstRequest(requests: seq<MealRequest>, id: Id, k: int) {
    && 0 <= k < |requests|
    && requests[k].id == id
    && forall j :: 0 <= j < k ==> requests[j].id != id
  }

  /** `DELETE /meal-requests/:id`: removes the first request with that id,
      whatever its status, and reports how many were deleted. */
  function CancelRequest(s: Store, id: Id): (r: (DeleteResult, Store))
    ensures r.0.deletedCount == (if HasRequestId(s.requests, id) then 1 else 0)
    ensures r.0.deletedCount == 0 ==> r.1 == s
    ensures r.0.deletedCount == 1 ==>
      exists k :: FirstRequest(s.requests, id, k) && r.1.requests == RemoveAt(s.requests, k)
    ensures r.1.users == s.users && r.1.meals == s.meals && r.1.likes == s.likes && r.1.reviews == s.reviews
  {
    match IndexOf(s.requests, (q: MealRequest) => q.id == id)
    case None => (DeleteResult(0), s)
    case Some(k) => (DeleteResult(1), s.(requests := RemoveAt(s.requests, k)))
  }

  /** Cancelling the request just created restores the request collection,
      after which the same user may request the meal again. */
  lemma CreateThenCancel(s: Store, body: RequestBody, newId: Id, now: Time)
    requires CreateRequest(s, body, newId, now).0.RequestInserted?
    requires forall i :: 0 <= i < |s.requests| ==> s.requests[i].id != newId
    ensures var t := CancelRequest(CreateRequest(s, body, newId, now).1, newId);
      t.0 == DeleteResult(1) && t.1 == s
  {
    var request := MealRequest(newId, body.mealId, body.userEmail, body.userName, Pending, now);
    assert CreateRequest(s, body, newId, now).1 == s.(requests := s.requests + [request]);
    CancelLast(s, request);
  }

  /** Cancelling the last request, when its id is unique, removes just it. */
  lemma CancelLast(s: Store, request: MealRequest)
    requires forall i :: 0 <= i < |s.requests| ==> s.requests[i].id != request.id
    ensures CancelRequest(s.(requests := s.requests + [request]), request.id) == (DeleteResult(1), s)
  {
    var s1 := s.(requests := s.requests + [request]);
    var n := |s.requests|;
    assert FirstRequest(s1.requests, request.id, n) by {
      forall j | 0 <= j < n ensures s1.requests[j].id != request.id {
        assert s1.requests[j] == s.requests[j];
      }
    }
    var t := CancelRequest(s1, request.id);
    var k :| FirstRequest(s1.requests, request.id, k) && t.1.requests == RemoveAt(s1.requests, k);
    assert k == n;
    assert s1.requests[..n] == s.requests && s1.requests[n + 1..] == [];
    assert t.1.requests == s.requests;
  }

  /** How the store compares a query value with a stored field: a string
      and an ObjectId are values of different types and never equal. */
  datatype BsonValue = BsonString(s: string) | BsonObjectId(oid: Id)

  /** `POST /meal-requests` as written: the duplicate query compares the
      raw body string `rawMealId` with the stored field, which the insert
      wrote as `new ObjectId(rawMealId)`. */
  function CreateRequestAsWritten(s: Store, rawMealId: string, email: string, name: string, newId: Id, now: Time)
    : (r: (RequestReply, Store))
    ensures r.0 == PremiumOnly <==> !Users.PremiumAllowed(s.users, email)
    ensures r.0 != AlreadyRequested
  {
    if !Users.PremiumAllowed(s.users, email) then (PremiumOnly, s)
    else if IndexOf(s.requests, (q: MealRequest) => BsonObjectId(q.mealId) == BsonString(rawMealId) && q.userEmail == email).Some? then
      (AlreadyRequested, s)
    else
      var request := MealRequest(newId, ObjectId(rawMealId), email, name, Pending, now);
      (RequestInserted(newId), s.(requests := s.requests + [request]))
  }

  /** As written, a premium user who requests the same meal twice gets two
      stored requests for the pair: the duplicate check lets the second one
      through, where the corrected `CreateRequest` answers 400. */
  lemma AsWrittenStoresDuplicates(s: Store, rawMealId: string, email: string, name: string,
                                  id1: Id, t1: Time, id2: Id, t2: Time)
    requires Users.PremiumAllowed(s.users, email)
    ensures var s1 := CreateRequestAsWritten(s, rawMealId, email, name, id1, t1).1;
      var s2 := CreateRequestAsWritten(s1, rawMealId, email, name, id2, t2);
      && s2.0 == RequestInserted(id2)
      && !NoDuplicateRequests(s2.1.requests)
    ensures var body := RequestBody(ObjectId(rawMealId), email, name);
      var s1 := CreateRequest(s, body, id1, t1).1;
      CreateRequest(s1, body, id2, t2).0 == AlreadyRequested
  {
    var s1 := CreateRequestAsWritten(s, rawMealId, email, name, id1, t1).1;
    var s2 := CreateRequestAsWritten(s1, rawMealId, email, name, id2, t2).1;
    var n := |s.requests|;
    assert s2.requests[n].mealId == s2.requests[n + 1].mealId;
    var body := RequestBody(ObjectId(rawMealId), email, name);
    var c1 := CreateRequest(s, body, id1, t1);
    if c1.0.RequestInserted? {
      SecondRequestRejected(s, body, id1, t1, id2, t2);
    } else {
      assert c1.1.requests == s.requests;
    }
  }
}

=== FILE: reviews.dfy ===
/** The review routes: `POST /reviews` (always inserts and bumps the meal's
    `reviews_count`), `DELETE /reviews/:id` and `PATCH /reviews/:id` (which
    leave the counter alone). */
module Reviews {
  import opened Documents

  /** The client's body for `POST /reviews`, stored as sent. The stored
      `mealId` stays the client's string, whereas likes and requests store
      an ObjectId; the model gives all three one `Id` type. */
  datatype ReviewBody = ReviewBody(mealId: Id, email: string, review: string, time: Time)

  /** `{insertedId, review}`: the new row's id and the body echoed back.
      `insertOne` adds `_id: insertedId` to the body object in place, so the
      echoed review also carries the id; here that id is `insertedId`. */
  datatype ReviewAdded = ReviewAdded(insertedId: Id, review: ReviewBody)

  predicate HasReview(reviews: seq<Review>, id: Id) {
    exists i :: 0 <= i < |reviews| && reviews[i].id == id
  }

  /** `reviews[k]` is the review a filter `{_id: id}` picks first. */
  predicate FirstReview(reviews: seq<Review>, id: Id, k: int) {
    && 0 <= k < |reviews|
    && reviews[k].id == id
    && forall j :: 0 <= j < k ==> reviews[j].id != id
  }

  /** The number of review rows recorded for a meal. */
  function ReviewsOf(reviews: seq<Review>, mealId: Id): nat {
    Count(reviews, (v: Review) => v.mealId == mealId)
  }

  /** Every meal's `reviews_count` equals the number of its review rows. */
  predicate ReviewsCoherent(s: Store) {
    forall i :: 0 <= i < |s.meals| ==> s.meals[i].reviewsCount == ReviewsOf(s.reviews, s.meals[i].id)
  }

  /** `POST /reviews`: no duplicate check. The review is appended under the
      store-assigned `newId`, and the first meal with the review's `mealId`
      gets `reviews_count` raised by one; nothing else changes. */
  function AddReview(s: Store, body: ReviewBody, newId: Id): (r: (ReviewAdded, Store))
    ensures r.0 == ReviewAdded(newId, body)
    ensures |r.1.reviews| == |s.reviews| + 1 && r.1.reviews[..|s.reviews|] == s.reviews
    ensures r.1.reviews[|s.reviews|] == Review(newId, body.mealId, body.email, body.review, body.time)
    ensures |r.1.meals| == |s.meals|
    ensures forall i :: 0 <= i < |s.meals| && s.meals[i].id != body.mealId ==> r.1.meals[i] == s.meals[i]
    ensures forall i :: 0 <= i < |s.meals| ==> r.1.meals[i].id == s.meals[i].id
    ensures forall k :: FirstMeal(s.meals, body.mealId, k) ==>
      && r.1.meals[k] == s.meals[k].(reviewsCount := s.meals[k].reviewsCount + 1)
      && forall i :: 0 <= i < |s.meals| && i != k ==> r.1.meals[i] == s.meals[i]
    ensures UniqueMealIds(s.meals) ==>
      forall i :: 0 <= i < |s.meals| && s.meals[i].id == body.mealId ==>
        r.1.meals[i] == s.meals[i].(reviewsCount := s.meals[i].reviewsCount + 1)
    ensures r.1.users == s.users && r.1.likes == s.likes && r.1.requests == s.requests
  {
    var review := Review(newId, body.mealId, body.email, body.review, body.time);
    var (meals, _) := IncrementCounter(s.meals, body.mealId, ReviewsCounter);
    (ReviewAdded(newId, body), s.(reviews := s.reviews + [review], meals := meals))
  }

  /** `DELETE /reviews/:id`: removes the first review with that id, if any,
      and reports how many were deleted. The meals' `reviews_count` is left
      as it was. */
  function DeleteReview(s: Store, id: Id): (r: (DeleteResult, Store))
    ensures r.0.deletedCount == (if HasReview(s.reviews, id) then 1 else 0)
    ensures !HasReview(s.reviews, id) ==> r.1 == s
    ensures HasReview(s.reviews, id) ==>
      exists k :: FirstReview(s.reviews, id, k) && r.1.reviews == RemoveAt(s.reviews, k)
    ensures r.1.meals == s.meals
    ensures r.1.users == s.users && r.1.likes == s.likes && r.1.requests == s.requests
  {
    match IndexOf(s.reviews, (v: Review) => v.id == id)
    case None => (DeleteResult(0), s)
    case Some(k) => (DeleteResult(1), s.(reviews := RemoveAt(s.reviews, k)))
  }

  /** `PATCH /reviews/:id` with body `{review}`: `$set` of the text of the
      first review with that id. `matchedCount` says whether it exists and
      `modifiedCount` whether its text actually changed. No other field of
      any review, and no other collection, changes. */
  function EditReview(s: Store, id: Id, text: string): (r: (UpdateResult, Store))
    ensures r.0.matchedCount == (if HasReview(s.reviews, id) then 1 else 0)
    ensures !HasReview(s.reviews, id) ==> r == (UpdateResult(0, 0), s)
    ensures |r.1.reviews| == |s.reviews|
    ensures forall k :: FirstReview(s.reviews, id, k) ==>
      && r.1.reviews[k] == s.reviews[k].(review := text)
      && (forall i :: 0 <= i < |s.reviews| && i != k ==> r.1.reviews[i] == s.reviews[i])
      && r.0.modifiedCount == (if s.reviews[k].review != text then 1 else 0)
    ensures r.1.meals == s.meals
    ensures r.1.users == s.users && r.1.likes == s.likes && r.1.requests == s.requests
  {
    match IndexOf(s.reviews, (v: Review) => v.id == id)
    case None => (UpdateResult(0, 0), s)
    case Some(k) =>
      var modified := if s.reviews[k].review != text then 1 else 0;
      (UpdateResult(1, modified), s.(reviews := s.reviews[k := s.reviews[k].(review := text)]))
  }

  /** Sequential review insertions keep every meal's `reviews_count` equal
      to its number of review rows, provided meal ids are unique. */
  lemma AddReviewKeepsCountersCoherent(s: Store, body: ReviewBody, newId: Id)
    requires UniqueMealIds(s.meals)
    requires ReviewsCoherent(s)
    ensures ReviewsCoherent(AddReview(s, body, newId).1)
  {
    var t := AddReview(s, body, newId).1;
    var v := Review(newId, body.mealId, body.email, body.review, body.time);
    assert t.reviews == s.reviews + [v];
    forall i | 0 <= i < |t.meals|
      ensures t.meals[i].reviewsCount == ReviewsOf(t.reviews, t.meals[i].id)
    {
      CountAppend(s.reviews, v, (x: Review) => x.mealId == s.meals[i].id);
    }
  }

  /** Deleting the review just added restores the review collection, but
      the meal keeps the extra `reviews_count`: the counter only ever grows. */
  lemma AddThenDeleteReview(s: Store, body: ReviewBody, newId: Id)
    requires !HasReview(s.reviews, newId)
    requires UniqueMealIds(s.meals)
    ensures var t := DeleteReview(AddReview(s, body, newId).1, newId);
      && t.0 == DeleteResult(1)
      && t.1.reviews == s.reviews
      && forall i :: 0 <= i < |s.meals| && s.meals[i].id == body.mealId ==>
           t.1.meals[i].reviewsCount == s.meals[i].reviewsCount + 1
  {
  }

  /** Deleting a review can leave a meal's `reviews_count` above its number
      of review rows: the one review of a meal with count 1 is deleted and
      the count stays 1. */
  lemma DeleteReviewBreaksCoherence(m: Meal, v: Review)
    requires v.mealId == m.id && m.reviewsCount == 1
    ensures var s := Store([], [m], [], [v], []);
      ReviewsCoherent(s) && !ReviewsCoherent(DeleteReview(s, v.id).1)
  {
    var s := Store([], [m], [], [v], []);
    assert [v][1..] == [];
    assert ReviewsOf(s.reviews, m.id) == 1;
    var t := DeleteReview(s, v.id).1;
    assert FirstReview(s.reviews, v.id, 0);
    assert t.reviews == [];
    assert ReviewsOf(t.reviews, m.id) == 0;
    assert t.meals[0] == m;
  }

  /** Editing is idempotent: repeating an edit with the same text changes
      nothing further and reports `modifiedCount` 0. */
  lemma EditReviewIdempotent(s: Store, id: Id, text: string)
    ensures var once := EditReview(s, id, text);
      var twice := EditReview(once.1, id, text);
      twice.1 == once.1 && twice.0.modifiedCount == 0 && twice.0.matchedCount == once.0.matchedCount
  {
  }
}

=== FILE: store.dfy ===
/** The document store behind the meal-subscription server, as an immutable
    value: one sequence per collection, each in the store's natural
    (insertion) order. Every route of the server is modelled elsewhere as a
    pure function from a store to a reply and a new store.

    The three Mongo primitives the routes use are modelled here once:
    `findOne`/`updateOne`/`deleteOne` act on the FIRST document, in natural
    order, that matches the filter (`IndexOf`), and `countDocuments`-style
    counting is `Count`. */
module Documents {

  datatype Option<+T> = None | Some(value: T)

  /** A document identifier (a Mongo ObjectId). The model only ever compares
      identifiers for equality. */
  datatype Id = ObjectId(hex: string)

  /** A value of the server clock (`new Date()`); no rule looks inside it. */
  type Time = nat

  datatype User = User(id: Id, email: string, name: string, role: Option<string>, badge: Option<string>)

  /** `price` is carried through unchanged; no rule computes with it. */
  datatype Meal = Meal(
    id: Id,
    title: string,
    category: string,
    price: int,
    email: string,
    rating: int,
    likes: nat,
    reviewsCount: nat)

  datatype Like = Like(id: Id, mealId: Id, userEmail: string, time: Time)

  datatype Review = Review(id: Id, mealId: Id, email: string, review: string, time: Time)

  /** Requests are created `Pending`; `Delivered` is set by a route outside
      this model, so stored requests may carry either. */
  datatype Status = Pending | Delivered

  datatype MealRequest = MealRequest(
    id: Id,
    mealId: Id,
    userEmail: string,
    userName: string,
    status: Status,
    requestedAt: Time)

  datatype Store = Store(
    users: seq<User>,
    meals: seq<Meal>,
    likes: seq<Like>,
    reviews: seq<Review>,
    requests: seq<MealRequest>)

  /** The reply of Mongo's `deleteOne`. */
  datatype DeleteResult = DeleteResult(deletedCount: nat)

  /** The reply of Mongo's `updateOne`: documents matched and documents whose
      contents actually changed. */
  datatype UpdateResult = UpdateResult(matchedCount: nat, modifiedCount: nat)

  /** JavaScript truthiness of an optional string field: `undefined`, `null`
      and the empty string are all falsy. */
  predicate Present(s: Option<string>) {
    s.Some? && s.value != ""
  }

  /** Position of the first element satisfying `p`, as `findOne`,
      `updateOne` and `deleteOne` pick their target. */
  function IndexOf<T>(xs: seq<T>, p: T -> bool): (r: Option<nat>)
    ensures r.None? <==> forall i :: 0 <= i < |xs| ==> !p(xs[i])
    ensures r.Some? ==> r.value < |xs| && p(xs[r.value])
    ensures r.Some? ==> forall j :: 0 <= j < r.value ==> !p(xs[j])
  {
    if |xs| == 0 then None
    else if p(xs[0]) then Some(0)
    else match IndexOf(xs[1..], p)
      case None => None
      case Some(k) => Some(k + 1)
  }

  /** Number of elements satisfying `p`. */
  function Count<T>(xs: seq<T>, p: T -> bool): (n: nat)
    ensures n <= |xs|
    ensures n == 0 <==> forall i :: 0 <= i < |xs| ==> !p(xs[i])
  {
    if |xs| == 0 then 0
    else (if p(xs[0]) then 1 else 0) + Count(xs[1..], p)
  }

  /** Appending one element raises the count by one exactly when the new
      element satisfies `p`. */
  lemma {:induction false} CountAppend<T>(xs: seq<T>, x: T, p: T -> bool)
    ensures Count(xs + [x], p) == Count(xs, p) + (if p(x) then 1 else 0)
  {
    if |xs| == 0 {
      assert xs + [x] == [x];
    } else {
      assert (xs + [x])[1..] == xs[1..] + [x];
      CountAppend(xs[1..], x, p);
    }
  }

  /** Two sequences that agree, position by position, on `p` have the same
      count. */
  lemma {:induction false} CountPointwise<T>(xs: seq<T>, ys: seq<T>, p: T -> bool)
    requires |xs| == |ys|
    requires forall i :: 0 <= i < |xs| ==> p(xs[i]) == p(ys[i])
    ensures Count(xs, p) == Count(ys, p)
  {
    if |xs| > 0 {
      assert forall i :: 0 <= i < |xs| - 1 ==> xs[1..][i] == xs[i + 1] && ys[1..][i] == ys[i + 1];
      CountPointwise(xs[1..], ys[1..], p);
    }
  }

  /** The sequence with the element at `k` removed, as `deleteOne` leaves
      the collection. */
  function RemoveAt<T>(xs: seq<T>, k: nat): (r: seq<T>)
    requires k < |xs|
    ensures |r| == |xs| - 1
    ensures forall i :: 0 <= i < k ==> r[i] == xs[i]
    ensures forall i :: k <= i < |r| ==> r[i] == xs[i + 1]
  {
    xs[..k] + xs[k + 1..]
  }

  predicate HasMeal(meals: seq<Meal>, id: Id) {
    exists i :: 0 <= i < |meals| && meals[i].id == id
  }

  /** No two meals share an identifier: the store assigns a fresh ObjectId
      to every inserted meal. */
  predicate UniqueMealIds(meals: seq<Meal>) {
    forall i, j :: 0 <= i < j < |meals| ==> meals[i].id != meals[j].id
  }

  /** The denormalised counters a like or a review bumps with `$inc`. */
  datatype Counter = LikesCounter | ReviewsCounter

  function Bump(m: Meal, c: Counter): Meal {
    match c
    case LikesCounter => m.(likes := m.likes + 1)
    case ReviewsCounter => m.(reviewsCount := m.reviewsCount + 1)
  }

  /** `meals[k]` is the meal a filter `{_id: id}` picks first. */
  predicate FirstMeal(meals: seq<Meal>, id: Id, k: int) {
    && 0 <= k < |meals|
    && meals[k].id == id
    && forall j :: 0 <= j < k ==> meals[j].id != id
  }

  /** `updateOne({_id: id}, {$inc: {counter: 1}})` on the meals collection:
      the first meal with that id gets the counter raised by one, and the
      reply's `modifiedCount` says whether such a meal existed. */
  function IncrementCounter(meals: seq<Meal>, id: Id, c: Counter): (r: (seq<Meal>, nat))
    ensures |r.0| == |meals|
    ensures r.1 == (if HasMeal(meals, id) then 1 else 0)
    ensures !HasMeal(meals, id) ==> r.0 == meals
    ensures forall i :: 0 <= i < |meals| && meals[i].id != id ==> r.0[i] == meals[i]
    ensures forall i :: 0 <= i < |meals| ==> r.0[i].id == meals[i].id
    ensures forall k :: FirstMeal(meals, id, k) ==>
      && r.0[k] == Bump(meals[k], c)
      && forall i :: 0 <= i < |meals| && i != k ==> r.0[i] == meals[i]
    ensures UniqueMealIds(meals) ==>
      forall i :: 0 <= i < |meals| && meals[i].id == id ==> r.0[i] == Bump(meals[i], c)
  {
    match IndexOf(meals, (m: Meal) => m.id == id)
    case None => (meals, 0)
    case Some(k) => (meals[k := Bump(meals[k], c)], 1)
  }
}

=== FILE: users.dfy ===
/** User lookups: the role route (`GET /users/:email/role`) and the premium
    gate that guards meal requests. Both look a user up with
    `findOne({email})`, i.e. the first user document carrying that email. */
module Users {
  import opened Documents

  /** `users[k]` is the document `findOne({email})` returns. */
  predicate FirstWithEmail(users: seq<User>, email: string, k: int) {
    && 0 <= k < |users|
    && users[k].email == email
    && forall j :: 0 <= j < k ==> users[j].email != email
  }

  function FindUser(users: seq<User>, email: string): (r: Option<User>)
    ensures r.None? <==> forall i :: 0 <= i < |users| ==> users[i].email != email
    ensures r.Some? ==> exists k :: FirstWithEmail(users, email, k) && users[k] == r.value
  {
    match IndexOf(users, (u: User) => u.email == email)
    case None => None
    case Some(k) => Some(users[k])
  }

  /** `user?.role || 'user'`: the stored role of the user with that email,
      falling back to "user" when there is no such user or the role is
      missing or empty. The reply is never the empty string. */
  function RoleOf(users: seq<User>, email: string): (r: string)
    ensures r != ""
    ensures (forall i :: 0 <= i < |users| ==> users[i].email != email) ==> r == "user"
    ensures forall k :: FirstWithEmail(users, email, k) ==>
      r == (if Present(users[k].role) then users[k].role.value else "user")
  {
    match FindUser(users, email)
    case None => "user"
    case Some(u) => if Present(u.role) then u.role.value else "user"
  }

  /** ASCII lower-casing of one character. */
  function LowerChar(c: char): char {
    if 'A' <= c <= 'Z' then (c as int + 32) as char else c
  }

  /** `String.prototype.toLowerCase`, on the ASCII letters. No character
      outside ASCII lower-cases to one of the letters of "bronze", so the
      comparison the premium gate makes is the same under either folding. */
  function Lower(s: string): string
  {
    seq(|s|, i requires 0 <= i < |s| => LowerChar(s[i]))
  }

  /** `badge.toLowerCase() === 'bronze'`: the lowest, non-premium tier. */
  predicate IsBronze(badge: string) {
    Lower(badge) == "bronze"
  }

  /** The premium gate of `POST /meal-requests`: the user must exist, and a
      badge, when present, must not be bronze in any letter case. A user
      without a badge passes. */
  predicate PremiumAllowed(users: seq<User>, email: string) {
    match FindUser(users, email)
    case None => false
    case Some(u) => !(u.badge.Some? && IsBronze(u.badge.value))
  }

  /** A badge is bronze exactly when it spells "bronze" ignoring the case of
      each letter; "Bronze" and "BRONZE" are bronze, "Gold" and "bronze "
      are not. */
  lemma BronzeIgnoresCase(badge: string)
    ensures IsBronze(badge) <==>
      |badge| == 6 && forall i :: 0 <= i < 6 ==> badge[i] == "bronze"[i] || badge[i] == "BRONZE"[i]
    ensures IsBronze("Bronze") && IsBronze("BRONZE") && IsBronze("bronze")
    ensures !IsBronze("Gold") && !IsBronze("bronze ")
  {
  }

  /** The gate in terms of the stored user: denied when no user has the
      email, or when the first such user's badge is bronze in any case. */
  lemma PremiumGate(users: seq<User>, email: string)
    ensures (forall i :: 0 <= i < |users| ==> users[i].email != email) ==> !PremiumAllowed(users, email)
    ensures forall k :: FirstWithEmail(users, email, k) ==>
      (PremiumAllowed(users, email) <==> users[k].badge.None? || !IsBronze(users[k].badge.value))
  {
  }
}
